=== FILE: README.md ===
# Live roll-call session

A Dafny model of the live attendance session of an attendance-tracking
service. A teacher starts a roll call for a class. Over WebSocket connections,
the teacher then marks students, asks for a summary, and finally sends DONE.
DONE fills in absentees from the class roster, writes one attendance record
per student, and ends the session. Students may ask for their own status while
the session runs.

The whole session lives in one process-wide slot (`activeSession`). The model
keeps the slot as the source declares it: a record of four optional fields
(`classId`, `startedAt`, `teacherId`, `attendance`). It starts out as `{}`,
which is `Session.Empty`. There is no separate "no session" value. A slot is
idle exactly when no teacher owns it, so the ownership check is what refuses
events while idle. The source's `!activeSession` tests can never succeed,
because the slot is always an object.

Each inbound event is handled by a pure function,
`Router.Step(slot, identity, event, classes, persistOk)`. It returns the new
slot and a list of outputs:

- `Reply` goes to the sender only.
- `Broadcast` goes to every open connection.
- `Close` ends the sender's connection.
- `Persist(records)` is one batch insert.

External pieces become parameters:

- The class store (each class's teacher and roster list) is `classes`.
- The token verifier is a function `string -> Option<Identity>`.
- Whether the batch insert succeeds is `persistOk`.
- The start timestamp is `now`.

A handler that would throw (a TypeError on an undefined field) is modelled as
`Messages.Throw`: no output and an unchanged slot. Every such branch is
unreachable from `Empty` (`Session.Wf`, preserved by `Step` and `Run`). The
model assumes the server process outlives a handler whose promise rejects; see
"Left out" for what the runtime does instead.

Modules: `Options`, `Session` (slot and start action), `Messages` (outputs),
`Gateway` (token check), `Tally` (counts), `Reconcile` (DONE), `Router`
(event handler), `Properties`, `Scenarios` and `Findings`.

Source behaviour the model keeps as written, including its surprises:

- Statuses are not validated: any string is stored.
- An empty-string status counts as "not marked" for the DONE fill-in and for
  MY_ATTENDANCE, because the source uses JavaScript falsiness.
- MY_ATTENDANCE checks enrolment before it checks for a session. When the slot
  has no class id, the store's query drops the undefined id filter. It then
  accepts a student enrolled in any class (`Router.Enrolled`).
- The refusal texts are the source's own. DONE's role refusal reads "Forbidden,
  student event only". DONE's ownership refusal is "Forbidden , you are not
  class teacher", not "no active session".
- DONE writes the absentee fill-ins into the slot before the batch insert. A
  failed insert therefore leaves the filled-in map installed, rather than the
  unchanged map. A retry writes the same batch (`Properties.DoneRetry`).
- The start action has no return after its 403. It still installs a fresh
  session for the class's own teacher, replacing any running one. For an
  unknown class it installs a session that nobody owns.

## Model

| member | source | states |
|---|---|---|
| Session.Start | src/index.ts:594-620 | a request that does not parse changes nothing; otherwise the slot is replaced by a fresh session (empty map, start time) whatever the 403 check says; the reply is 200 with the requested class and the start time exactly when the class exists and belongs to the requester, which is exactly when the requester owns the new slot, and 403 otherwise, unknown class included; an unknown class leaves class and teacher undefined |
| Gateway.Connect | src/index.ts:46-66 | a missing, empty or repeated `token` is refused with "Token not found" before verification; otherwise the connection is admitted exactly when the verifier accepts the token, with the verifier's identity, and refused with "Unauthorized or invalid token" when it does not |
| Router.Serve | src/index.ts:46-71 | a connection the token check refuses never reaches the handler: the slot is untouched and the sender gets an ERROR then Close |
| Router.Step | src/index.ts:68-209 | unknown tags are ignored; teacher events from a non-teacher or a non-owner are refused (ERROR then Close) and change nothing; MY_ATTENDANCE from a non-student or a non-enrolled student is refused; an enrolled student is answered with their stored status when it is present and non-empty, with "not yet updated" otherwise, and is refused when no attendance map exists; every refusal leaves the slot unchanged; TODAY_SUMMARY and MY_ATTENDANCE are read-only and MY_ATTENDANCE only answers the sender; an owner's mark writes its key with its status, leaves every other key as it was and broadcasts the mark; only DONE empties the slot; class, teacher and start time never change otherwise and no key disappears; well-formed slots stay well-formed |
| Router.Run | src/index.ts:68-209 | handling events in order keeps the slot well-formed; without a DONE the session neither ends nor starts (the slot is empty afterwards exactly when it was before), and its class, owning teacher and start time stay as they were |
| Tally.CountIdentities | src/index.ts:104-107 | present + absent never exceeds total, and equals it exactly when every stored status is "present" or "absent" |
| Tally.WalkOneKey | src/index.ts:104-107 | counting one more key adds one exactly when that key holds the counted status |
| Tally.TallyValues | src/index.ts:104-107 | walking the keys once yields the number of "present" keys, the number of "absent" keys and the number of keys |
| Reconcile.FillAbsent | src/index.ts:173-179 | walking the roster yields the completed map: keys are the old keys plus every roster student, unmarked roster students are "absent", every other key keeps its status |
| Reconcile.FillAbsentStep | src/index.ts:173-179 | completing the map after the first roster student is filled in completes it for the whole roster |
| Reconcile.FillAbsentIdempotent | src/index.ts:173-179 | filling in an already completed map changes nothing |
| Reconcile.RecordsOnePerKey | src/index.ts:181-185 | the batch has exactly as many records as the map has keys, and a record is in it exactly when it carries the session's class, a key and that key's status |
| Reconcile.Entries | src/index.ts:181-185 | listing the entries yields one record per key, no student twice, and exactly the records of the batch |
| Reconcile.Finalize | src/index.ts:160-208 | the slot is emptied exactly when the write succeeds or there is nothing to write; otherwise it keeps the completed map; every emitted batch is the completed map's records, one per key; only writes and broadcasts are emitted |
| Properties.RunOfMarks | src/index.ts:72-86 | a run of the owner's marks only rewrites the attendance map and broadcasts every mark in order |
| Properties.ApplyMarksLastWins | src/index.ts:84 | after a run of marks a student is a key exactly when they were before or were marked, and holds the last status written for them, or their old one |
| Properties.MarkBroadcastsAt | src/index.ts:85 | the i-th broadcast of a run of the owner's marks announces the i-th mark's student and status, one broadcast per mark |
| Properties.MarkBroadcastsAppend | src/index.ts:85 | two runs of marks one after the other broadcast the first run's announcements followed by the second's |
| Properties.LastWriteWins | src/index.ts:72-86 | over any run of the owner's marks the final map holds the last status written per student, every other entry is kept, nothing else in the slot changes, and each mark is broadcast in order |
| Properties.SummaryReport | src/index.ts:88-108 | the owner's TODAY_SUMMARY leaves the slot alone and broadcasts present / absent counts over keys and total = number of keys, with present + absent <= total and equality exactly when every status is one of the two |
| Properties.MarkThenQuery | src/index.ts:111-145 | after the owner marks an enrolled student, that student's MY_ATTENDANCE answers with the status written, or "not yet updated" when the status was the empty string |
| Properties.FillInFacts | src/index.ts:173-179 | every roster student is a key afterwards; a marked one keeps the status, an unmarked one is "absent"; students off the roster keep theirs; nothing else is added; the map is empty only when both map and roster were |
| Properties.FinalizeEmits | src/index.ts:181-208 | one batch of one record per key of the completed map, none when it is empty; on success the slot is empty and the last broadcast carries the completed map's counts; on failure only the batch is emitted and the slot keeps the completed map |
| Properties.DoneReconciles | src/index.ts:147-208 | the owner's DONE on an installed session has the fill-in, one-record-per-key, clear-on-success and keep-on-failure behaviour above, stated for the session's class and roster |
| Properties.DoneSucceeds | src/index.ts:181-208 | a DONE whose write succeeds emits exactly the batch and then the final summary, and empties the slot |
| Properties.DoneRetry | src/index.ts:173-192 | a DONE retried after a failed write does exactly what a first successful DONE would have done; a failed store can only leave the slot empty when there was nothing to write |
| Properties.StartThenSummary | src/index.ts:594-620 | a session started by the class's teacher answers that teacher's TODAY_SUMMARY with 0 / 0 / 0 |
| Properties.ForbiddenStartStillInstalls | src/index.ts:610-620 | a start by someone who is not the class's teacher gets 403 and still replaces the slot with an empty session owned by the class's teacher |
| Properties.IdleAfterDone | src/index.ts:194-209 | after a successful DONE every known event from anyone is refused until the next start |
| Scenarios.TwoMarks | src/index.ts:84-85 | marking S1 and S2 present on a fresh session yields {S1: present, S2: present} and two broadcasts |
| Scenarios.RosterFillIn | src/index.ts:173-179 | the roster S1, S2, S3 over {S1: present, S2: present} adds S3 as absent |
| Scenarios.CompletedFigures | src/index.ts:181-197 | the completed map gives the three records and counts 2 / 1 / 3 |
| Scenarios.FinishRollCall | src/index.ts:147-208 | DONE on that session writes the three records and broadcasts 2 / 1 / 3 with an empty slot |
| Scenarios.StartClass | src/index.ts:617-620 | T starting class C installs a fresh session for C owned by T and answers 200 |
| Scenarios.ClassRollCall | src/index.ts:68-209 | start, two marks and DONE, end to end: records {S1 present, S2 present, S3 absent}, summary 2 / 1 / 3, slot empty |
| Scenarios.RefusalTexts | src/index.ts:72-158 | each refusal carries the source's own text: "Forbidden, teacher event only" for a mark or summary from a non-teacher, "No active attendance session" from a non-owner, "The Attendance is still not persisted" for a summary without a map, "Forbidden, student event only" for MY_ATTENDANCE from a non-student and for DONE from a non-teacher, "Forbidden , you are not class teacher" for DONE from a non-owner, "you are not enrolled to this class" and "No active attendance session" for MY_ATTENDANCE; each is followed by Close and keeps the slot |
| Scenarios.OutsiderQuery | src/index.ts:117-131 | a student outside the class gets "you are not enrolled to this class" and Close, and learns no status |
| Findings.FinalizeAsWritten | src/index.ts:173-199 | as written, the reconciliation stops after the write: the slot holds the completed map and only batches are emitted |
| Findings.DoneAsWritten | src/index.ts:147-199 | as written, the owner's DONE leaves that teacher owning the slot |
| Findings.DoneNeverClearsAsWritten | src/index.ts:194-208 | as written, a successful DONE leaves the teacher owning the session, broadcasts nothing, and a second DONE writes the same batch again |

## Left out

- The Express CRUD routes (src/index.ts:225-592) are request/response wrappers over the database. So are `src/middleware.ts` and `types/express/index.d.ts`. The start action's caller is taken to be an authenticated teacher.
- Request-schema validation is the `request: Option<string>` input of `Session.Start`. `src/types.ts` does not export the `attendanceSchema` that `src/index.ts` imports.
- The HTTP responses of the start action are reduced to one reply value. After the 403, the 200 write fails because headers were already sent, and so does the 500 in the catch. The reply modelled is the 403.
- JSON parsing and destructuring of inbound messages are not modelled: `Router.Event` is the parsed tag with string fields. A malformed message, or one without `data`, throws before the switch.
- Class-store failures are not modelled: `classes` is a total map, so every store query answers. Three queries can reject instead. If MY_ATTENDANCE's enrolment query (src/index.ts:117) rejects, the handler throws before any reply and the slot is unchanged. If DONE's roster query (src/index.ts:160) rejects, DONE throws before the fill-in: nothing is written and the slot keeps its unfilled map, unlike the failed insert the model keeps. If the start action's class lookup (src/index.ts:605) rejects, the route answers 500 and installs nothing, whereas `Session.Start` installs for every request that parses.
- Router.Serve: the events after a refusal on the same connection are handled like any other, since the socket still delivers frames already in flight after the close; the model does not cut a connection's trace at its first Close.
- Token verification internals are not modelled. A payload without a `userId` claim is not modelled either: `Gateway.Identity.userId` is a string.
- The broadcast fan-out over open clients, and the ready-state check in `sendError`, are transport. Broadcasts and replies are output values only. The source hands the ATTENDANCE_MARKED and TODAY_SUMMARY payloads to the socket as plain objects, not JSON strings. The socket library turns a non-string payload into a buffer and throws on a plain object, so as written those two broadcasts reach no client and the broadcast's promise rejects. The model emits them as `Broadcast` outputs, as the code evidently intends.
- JavaScript object semantics are not modelled. The map is a Dafny `map`: keys inherited from the object prototype, such as `toString`, are not modelled, and neither is the ordering of integer-like keys.
- `Persist` carries the batch as a set. The order of `Object.entries` is not modelled; `Reconcile.Entries` lists it in some order.
- The store's skip-on-duplicate behaviour against rows already in the table is not modelled. Only the batch and a success flag are.
- Interleaving at the `await`s of MY_ATTENDANCE and DONE is not modelled, nor are events arriving on other connections meanwhile. Each event is handled atomically, in arrival order (`Router.Run`).
- Unhandled rejections are not modelled. The message listener, `broadcast` and the start route are async, and nothing catches their rejections. This affects a failed batch insert, the `const` assignment at the end of DONE, the object broadcasts above and the start route's second and third responses. The model assumes the process survives such a rejection and keeps its slot. That assumption is what gives `Properties.DoneRetry` and `Findings.DoneNeverClearsAsWritten` their meaning. Under Node.js 15 and later defaults, an unhandled rejection ends the process instead, losing the slot and every connection.
- Reconcile.Finalize: the attendance store's own check that each record's status is a value of its `Status` enum is folded into `persistOk`. That enum is not part of this model. The source only casts the status (`value as Status`), so a map holding any other status makes every batch insert fail. Examples are a mark of "late", or "" on a student off the roster, since the fill-in only replaces "" for roster students. For such a session no real DONE succeeds, whereas the model lets `persistOk` be true. `Properties.DoneRetry` therefore says what a retry does when the store accepts the batch, not that it ever will.
- Router.Step: refusals are stated as "an ERROR reply, then Close". The exact texts are stated separately, for every refusal, by `Scenarios.RefusalTexts`.

## Findings

| source | as written | input that shows it | evidently intended | confidence | as-written member | corrected member |
|---|---|---|---|---|---|---|
| src/index.ts:199 | `activeSession = null` assigns to a slot declared `const` (line 31), which throws a TypeError after the batch insert | the owning teacher's DONE on an installed session with a working store | the slot becomes empty and the final summary is broadcast | medium, not executed (holds when the compiled output keeps `const`; if it compiled to `var`, line 199 would leave the slot `null`, so the next start would throw on the field writes at line 617 and answer 500, and MY_ATTENDANCE would throw reading `activeSession.classId` at line 119; neither compilation reaches a restartable idle slot) | Findings.DoneNeverClearsAsWritten | Reconcile.Finalize |

=== FILE: findings.dfy ===
/**
 DONE as the source writes it. Its last step assigns `null` to the slot, but the
 slot is declared `const`, so that assignment throws a TypeError once the batch
 insert has gone through: the slot is never emptied and the final summary is
 never broadcast. `Reconcile.Finalize` models the evident intent instead.
 */
module Findings {
  import opened Options
  import opened Session
  import opened Messages
  import opened Tally
  import opened Reconcile
  import opened Gateway
  import opened Router
  import opened Properties

  /** The reconciliation up to the throwing assignment: the fill-in is in the
      slot, the batch (if any) is written, and nothing follows. */
  function FinalizeAsWritten(slot: Slot, classId: string, m: Attendance, roster: seq<string>, persistOk: bool)
    : (t: Transition)
    ensures t.slot == slot.(attendance := Some(FillAbsent(m, roster)))
    ensures forall o :: o in t.out ==> o.Persist?
  {
    var filled := FillAbsent(m, roster);
    var persist := if |filled| > 0 then [Persist(Records(classId, filled))] else [];
    Transition(slot.(attendance := Some(filled)), persist)
  }

  /** DONE with the as-written reconciliation. */
  function DoneAsWritten(slot: Slot, who: Identity, classes: Classes, persistOk: bool): (t: Transition)
    ensures who.role == TeacherRole && Owns(slot, who.userId) && slot.classId.Some? && slot.attendance.Some? ==>
              Owns(t.slot, who.userId)
  {
    if who.role != TeacherRole then Reject(slot, StudentOnly)
    else if !Owns(slot, who.userId) then Reject(slot, NotClassTeacher)
    else if slot.classId.None? || slot.attendance.None? then Throw(slot)
    else
      var c := slot.classId.value;
      FinalizeAsWritten(slot, c, slot.attendance.value, RosterOf(classes, c), persistOk)
  }

  /** As written, a DONE whose write succeeds leaves the teacher owning the
      session and broadcasts no summary, and a second DONE writes the same batch
      again. (`Reconcile.Finalize` empties the slot instead, and
      `Properties.DoneSucceeds` shows the summary it broadcasts.) */
  lemma DoneNeverClearsAsWritten(slot: Slot, who: Identity, classes: Classes)
    requires who.role == TeacherRole && Owns(slot, who.userId) && Wf(slot)
    ensures var first := DoneAsWritten(slot, who, classes, true);
            var second := DoneAsWritten(first.slot, who, classes, true);
            && first.slot != Empty
            && Owns(first.slot, who.userId)
            && (forall o :: o in first.out ==> !o.Broadcast?)
            && second.out == first.out
  {
    var c := slot.classId.value;
    var m := slot.attendance.value;
    var roster := RosterOf(classes, c);
    var filled := FillAbsent(m, roster);
    FillAbsentIdempotent(m, roster);
    var first := DoneAsWritten(slot, who, classes, true);
    assert first == FinalizeAsWritten(slot, c, m, roster, true);
    assert first.slot == slot.(attendance := Some(filled));
    assert DoneAsWritten(first.slot, who, classes, true) == FinalizeAsWritten(first.slot, c, filled, roster, true);
  }
}

=== FILE: gateway.dfy ===
/** The token check a real-time connection passes before any event is handled. */
module Gateway {
  import opened Options
  import opened Messages

  /** The `userId` and `role` claims of a verified token. The role is whatever
      string the token carries; only "teacher" and "student" open any event. */
  datatype Identity = Identity(userId: string, role: string)

  const TeacherRole := "teacher"
  const StudentRole := "student"

  const TokenNotFound := "Token not found"
  const InvalidToken := "Unauthorized or invalid token"

  datatype Handshake = Accepted(who: Identity) | Refused(out: seq<Output>)

  /**
   `token` lists every value the handshake query gave the `token` parameter:
   none when it is absent, several when it is repeated. A missing, empty or
   repeated token is refused before `verify` (the server's token verifier) is
   consulted; a token `verify` rejects is refused with its own message.
   */
  function Connect(token: seq<string>, verify: string -> Option<Identity>): (h: Handshake)
    ensures h.Accepted? <==> |token| == 1 && token[0] != "" && verify(token[0]).Some?
    ensures h.Accepted? ==> h.who == verify(token[0]).value
    ensures (|token| != 1 || token[0] == "") ==> h == Refused([Reply(ErrorMsg(TokenNotFound)), Close])
    ensures |token| == 1 && token[0] != "" && h.Refused? ==> h == Refused([Reply(ErrorMsg(InvalidToken)), Close])
  {
    if |token| != 1 || token[0] == "" then
      Refused([Reply(ErrorMsg(TokenNotFound)), Close])
    else
      match verify(token[0])
      case None => Refused([Reply(ErrorMsg(InvalidToken)), Close])
      case Some(who) => Accepted(who)
  }
}

=== FILE: messages.dfy ===
/** What one handled event produces: the new slot and the messages it emits. */
module Messages {
  import opened Session

  /** One row handed to the attendance store's batch insert. */
  datatype Record = Record(classId: string, studentId: string, status: string)

  /** Payloads, one per outbound event of the real-time protocol. */
  datatype Msg =
    | ErrorMsg(message: string)
    | MarkedMsg(studentId: string, status: string)
    | SummaryMsg(present: nat, absent: nat, total: nat)
    | StatusMsg(status: string)
    | DoneMsg(message: string, present: nat, absent: nat, total: nat)

  /** `Reply` goes to the sender only, `Broadcast` to every open connection,
      `Close` ends the sender's connection, `Persist` is one batch insert. */
  datatype Output =
    | Reply(msg: Msg)
    | Broadcast(msg: Msg)
    | Close
    | Persist(records: set<Record>)

  datatype Transition = Transition(slot: Slot, out: seq<Output>)

  /** The shape of every refusal: an ERROR to the sender, then its connection closes. */
  predicate IsRejection(out: seq<Output>) {
    |out| == 2 && out[0].Reply? && out[0].msg.ErrorMsg? && out[1] == Close
  }

  function Reject(slot: Slot, message: string): (t: Transition)
    ensures t.slot == slot && IsRejection(t.out)
  {
    Transition(slot, [Reply(ErrorMsg(message)), Close])
  }

  /** A handler that throws a TypeError on an undefined field: its promise
      rejects, nothing is sent and nothing in the slot has changed yet. */
  function Throw(slot: Slot): (t: Transition) {
    Transition(slot, [])
  }
}

=== FILE: options.dfy ===
/** Optional values: `None` stands for a field or lookup that is `undefined`. */
module Options {

  datatype Option<+T> = None | Some(value: T)
}

=== FILE: properties.dfy ===
/** Properties that relate several events: marking runs, summaries, the DONE
    reconciliation and its retry, and the start action. */
module Properties {
  import opened Options
  import opened Session
  import opened Messages
  import opened Tally
  import opened Reconcile
  import opened Gateway
  import opened Router

  /** The status the last mark of `k` in `marks` wrote, if any mark wrote one. */
  function LastStatus(marks: seq<Event>, k: string): (last: Option<string>)
    decreases |marks|
  {
    if |marks| == 0 then None
    else
      var last := marks[|marks| - 1];
      if last.AttendanceMarked? && last.studentId == k then Some(last.status)
      else LastStatus(marks[..|marks| - 1], k)
  }

  predicate AllMarks(marks: seq<Event>) {
    forall i :: 0 <= i < |marks| ==> marks[i].AttendanceMarked?
  }

  /** The owner's marks applied to the map one after another. */
  function ApplyMarks(m: Attendance, marks: seq<Event>): (m': Attendance)
    requires AllMarks(marks)
    decreases |marks|
  {
    if |marks| == 0 then m
    else
      var last := marks[|marks| - 1];
      ApplyMarks(m, marks[..|marks| - 1])[last.studentId := last.status]
  }

  /** The broadcasts the owner's marks produce, one per mark, in order. */
  function MarkBroadcasts(marks: seq<Event>): (out: seq<Output>)
    requires AllMarks(marks)
    decreases |marks|
  {
    if |marks| == 0 then []
    else
      var last := marks[|marks| - 1];
      MarkBroadcasts(marks[..|marks| - 1]) + [Broadcast(MarkedMsg(last.studentId, last.status))]
  }

  /** The i-th broadcast of a run of marks announces the i-th mark. */
  lemma {:induction false} MarkBroadcastsAt(marks: seq<Event>)
    requires AllMarks(marks)
    ensures |MarkBroadcasts(marks)| == |marks|
    ensures forall i :: 0 <= i < |marks| ==>
              MarkBroadcasts(marks)[i] == Broadcast(MarkedMsg(marks[i].studentId, marks[i].status))
    decreases |marks|
  {
    if |marks| > 0 {
      var init := marks[..|marks| - 1];
      assert AllMarks(init);
      MarkBroadcastsAt(init);
    }
  }

  /** Two runs of marks, one after the other, broadcast what each run
      broadcasts, in that order. */
  lemma {:induction false} MarkBroadcastsAppend(a: seq<Event>, b: seq<Event>)
    requires AllMarks(a) && AllMarks(b)
    ensures AllMarks(a + b)
    ensures MarkBroadcasts(a + b) == MarkBroadcasts(a) + MarkBroadcasts(b)
    decreases |b|
  {
    assert AllMarks(a + b) by {
      forall i | 0 <= i < |a + b|
        ensures (a + b)[i].AttendanceMarked?
      {
        if i >= |a| {
          assert (a + b)[i] == b[i - |a|];
        }
      }
    }
    if |b| > 0 {
      var init := b[..|b| - 1];
      assert AllMarks(init);
      assert (a + b)[..|a + b| - 1] == a + init;
      MarkBroadcastsAppend(a, init);
    } else {
      assert a + b == a;
    }
  }

  /** A run of the owner's marks only rewrites the attendance map and
      broadcasts every mark. */
  lemma {:induction false} RunOfMarks(slot: Slot, who: Identity, marks: seq<Event>, classes: Classes, persistOk: bool)
    requires AllMarks(marks)
    requires who.role == TeacherRole && Owns(slot, who.userId) && slot.attendance.Some?
    ensures Run(slot, Stamp(who, marks), classes, persistOk)
            == Transition(slot.(attendance := Some(ApplyMarks(slot.attendance.value, marks))), MarkBroadcasts(marks))
    decreases |marks|
  {
    if |marks| > 0 {
      var n := |marks| - 1;
      var init := marks[..n];
      assert AllMarks(init);
      assert Stamp(who, marks)[..n] == Stamp(who, init);
      RunOfMarks(slot, who, init, classes, persistOk);
    }
  }

  /** The map after a run of marks, key by key: the last write of each student
      wins, and students nobody marked keep what they had. */
  lemma {:induction false} ApplyMarksLastWins(m: Attendance, marks: seq<Event>)
    requires AllMarks(marks)
    ensures forall k :: k in ApplyMarks(m, marks) <==> k in m || LastStatus(marks, k).Some?
    ensures forall k :: k in ApplyMarks(m, marks) ==>
              ApplyMarks(m, marks)[k] == if LastStatus(marks, k).Some? then LastStatus(marks, k).value else m[k]
    decreases |marks|
  {
    if |marks| > 0 {
      var n := |marks| - 1;
      var init := marks[..n];
      assert AllMarks(init);
      ApplyMarksLastWins(m, init);
      forall k
        ensures LastStatus(marks, k) == if marks[n].studentId == k then Some(marks[n].status) else LastStatus(init, k)
      {
      }
    }
  }

  /**
   Last write wins: after the owning teacher's marks, a student is a key exactly
   when they were a key before or some mark wrote them, and holds the status of
   the last mark that wrote them (or their earlier status). Each mark is
   broadcast, in order, and nothing else about the slot changes.
   */
  lemma LastWriteWins(slot: Slot, who: Identity, marks: seq<Event>, classes: Classes, persistOk: bool)
    requires AllMarks(marks)
    requires who.role == TeacherRole && Owns(slot, who.userId) && slot.attendance.Some?
    ensures var t := Run(slot, Stamp(who, marks), classes, persistOk);
            && t.slot.attendance.Some?
            && t.slot == slot.(attendance := t.slot.attendance)
            && (forall k :: k in t.slot.attendance.value <==> k in slot.attendance.value || LastStatus(marks, k).Some?)
            && (forall k :: k in t.slot.attendance.value ==>
                  t.slot.attendance.value[k]
                  == if LastStatus(marks, k).Some? then LastStatus(marks, k).value else slot.attendance.value[k])
            && |t.out| == |marks|
            && (forall i :: 0 <= i < |marks| ==> t.out[i] == Broadcast(MarkedMsg(marks[i].studentId, marks[i].status)))
  {
    RunOfMarks(slot, who, marks, classes, persistOk);
    ApplyMarksLastWins(slot.attendance.value, marks);
    MarkBroadcastsAt(marks);
  }

  /** TODAY_SUMMARY by the owner broadcasts the counts of the current map:
      total is the number of students with an entry, present and absent never
      exceed it together, and they sum to it exactly when every status is one of
      the two. The slot is untouched. */
  lemma SummaryReport(slot: Slot, who: Identity, classes: Classes, persistOk: bool)
    requires who.role == TeacherRole && Owns(slot, who.userId) && slot.attendance.Some?
    ensures var m := slot.attendance.value;
            var t := Step(slot, who, TodaySummary, classes, persistOk);
            && t.slot == slot
            && t.out == [Broadcast(SummaryMsg(Count(m, Present), Count(m, Absent), |m|))]
            && Count(m, Present) + Count(m, Absent) <= |m|
            && (Count(m, Present) + Count(m, Absent) == |m| <==> OnlyKnownStatuses(m))
  {
    CountIdentities(slot.attendance.value);
  }

  /** A student's query answers with what the owner last wrote for them, or
      with the sentinel when that was the empty string. */
  lemma MarkThenQuery(slot: Slot, teacher: Identity, student: Identity, status: string, classes: Classes, persistOk: bool)
    requires teacher.role == TeacherRole && Owns(slot, teacher.userId) && slot.attendance.Some?
    requires student.role == StudentRole && Enrolled(classes, slot.classId, student.userId)
    ensures var marked := Step(slot, teacher, AttendanceMarked(student.userId, status), classes, persistOk);
            var asked := Step(marked.slot, student, MyAttendance, classes, persistOk);
            asked == Transition(marked.slot, [Reply(StatusMsg(if status == "" then NotYetUpdated else status))])
  {
  }

  /** The roster fill-in, student by student: every roster student ends up
      with a status, a marked one keeps it, an unmarked one is absent, and
      students off the roster keep theirs. */
  lemma FillInFacts(m: Attendance, roster: seq<string>)
    ensures var filled := FillAbsent(m, roster);
            && (forall s :: s in roster ==> s in filled && filled[s] == if Unmarked(m, s) then Absent else m[s])
            && (forall k :: k in m && k !in roster ==> k in filled && filled[k] == m[k])
            && (forall k :: k in filled ==> k in m || k in roster)
            && (|filled| == 0 <==> |m| == 0 && |roster| == 0)
  {
    var filled := FillAbsent(m, roster);
    assert Completes(filled, m, roster);
    assert |roster| > 0 ==> roster[0] in filled;
    if |filled| == 0 {
      assert filled.Keys == {};
    }
  }

  /** What the reconciliation emits for a completed map `filled`: one record per
      key (no write when it is empty), then, unless the write failed, the
      counts of the completed map and an empty slot. */
  lemma FinalizeEmits(slot: Slot, c: string, m: Attendance, roster: seq<string>, persistOk: bool)
    ensures var filled := FillAbsent(m, roster);
            var t := Finalize(slot, c, m, roster, persistOk);
            && (|filled| > 0 ==> |t.out| > 0 && t.out[0] == Persist(Records(c, filled))
                                 && |t.out[0].records| == |filled|)
            && (|filled| == 0 ==> forall o :: o in t.out ==> !o.Persist?)
            && ((persistOk || |filled| == 0) ==>
                  && t.slot == Empty
                  && |t.out| > 0
                  && t.out[|t.out| - 1] == Broadcast(DoneMsg(Persisted, Count(filled, Present), Count(filled, Absent), |filled|)))
            && ((!persistOk && |filled| > 0) ==>
                  t == Transition(slot.(attendance := Some(filled)), [Persist(Records(c, filled))]))
  {
    RecordsOnePerKey(c, FillAbsent(m, roster));
  }

  /**
   DONE by the owner of an installed session: the completed map has every roster
   student, keeps each marked status, marks the rest absent and keeps keys off
   the roster; one record per key of it is written (no write when it is empty);
   on success the slot is emptied and the counts of the completed map are
   broadcast; on a failed write the slot keeps the completed map.
   */
  lemma DoneReconciles(slot: Slot, who: Identity, classes: Classes, persistOk: bool)
    requires who.role == TeacherRole && Owns(slot, who.userId) && Wf(slot)
    ensures slot.classId.Some? && slot.attendance.Some?
    ensures var c := slot.classId.value;
            var m := slot.attendance.value;
            var roster := RosterOf(classes, c);
            var filled := FillAbsent(m, roster);
            var t := Step(slot, who, Done, classes, persistOk);
            && (forall s :: s in roster ==> s in filled && filled[s] == if Unmarked(m, s) then Absent else m[s])
            && (forall k :: k in m && k !in roster ==> k in filled && filled[k] == m[k])
            && (|filled| > 0 ==> |t.out| > 0 && t.out[0] == Persist(Records(c, filled))
                                 && |t.out[0].records| == |filled|)
            && (|filled| == 0 ==> forall o :: o in t.out ==> !o.Persist?)
            && ((persistOk || |filled| == 0) ==>
                  && t.slot == Empty
                  && |t.out| > 0
                  && t.out[|t.out| - 1] == Broadcast(DoneMsg(Persisted, Count(filled, Present), Count(filled, Absent), |filled|)))
            && ((!persistOk && |filled| > 0) ==>
                  t == Transition(slot.(attendance := Some(filled)), [Persist(Records(c, filled))]))
  {
    var c := slot.classId.value;
    var m := slot.attendance.value;
    var roster := RosterOf(classes, c);
    assert Step(slot, who, Done, classes, persistOk) == Finalize(slot, c, m, roster, persistOk);
    FillInFacts(m, roster);
    FinalizeEmits(slot, c, m, roster, persistOk);
  }

  /** A successful DONE with something to write, as one transition. */
  lemma DoneSucceeds(slot: Slot, who: Identity, classes: Classes)
    requires who.role == TeacherRole && Owns(slot, who.userId) && slot.classId.Some? && slot.attendance.Some?
    requires |FillAbsent(slot.attendance.value, RosterOf(classes, slot.classId.value))| > 0
    ensures var c := slot.classId.value;
            var filled := FillAbsent(slot.attendance.value, RosterOf(classes, c));
            Step(slot, who, Done, classes, true)
            == Transition(Empty, [Persist(Records(c, filled)),
                                  Broadcast(DoneMsg(Persisted, Count(filled, Present), Count(filled, Absent), |filled|))])
  {
  }

  /** A DONE retried after a failed write does exactly what a first DONE with a
      working store would have done: same records, same counts, empty slot.
      A failed store can only leave the slot empty when there was nothing to
      write, and then the first DONE already did all of that. */
  lemma DoneRetry(slot: Slot, who: Identity, classes: Classes)
    requires who.role == TeacherRole && Owns(slot, who.userId) && Wf(slot)
    ensures var failed := Step(slot, who, Done, classes, false);
            var retried := Step(failed.slot, who, Done, classes, true);
            && (failed.slot == Empty ==> failed == Step(slot, who, Done, classes, true))
            && (failed.slot != Empty ==> retried == Step(slot, who, Done, classes, true))
  {
    var c := slot.classId.value;
    var m := slot.attendance.value;
    var roster := RosterOf(classes, c);
    var filled := FillAbsent(m, roster);
    FillAbsentIdempotent(m, roster);
    var failed := Step(slot, who, Done, classes, false);
    if failed.slot != Empty {
      assert failed.slot == slot.(attendance := Some(filled));
      assert Step(failed.slot, who, Done, classes, true) == Finalize(failed.slot, c, filled, roster, true);
    }
  }

  /** A session started by its class's teacher reports 0 / 0 / 0 to that teacher. */
  lemma StartThenSummary(slot: Slot, classId: string, teacherId: string, classes: Classes, now: string, persistOk: bool)
    requires classId in classes && classes[classId].teacherId == teacherId
    ensures var started := Start(slot, Some(classId), teacherId, classes, now);
            && started.1 == Started(classId, now)
            && Step(started.0, Identity(teacherId, TeacherRole), TodaySummary, classes, persistOk)
               == Transition(started.0, [Broadcast(SummaryMsg(0, 0, 0))])
  {
    var m: Attendance := map[];
    assert KeysWith(m, Present) == {};
    assert KeysWith(m, Absent) == {};
  }

  /** The 403 does not stop the start action: a request by someone who is not
      the class's teacher still wipes the running session's marks and hands the
      slot to the class's own teacher. */
  lemma ForbiddenStartStillInstalls(slot: Slot, classId: string, requesterId: string, classes: Classes, now: string)
    requires classId in classes && classes[classId].teacherId != requesterId
    ensures var started := Start(slot, Some(classId), requesterId, classes, now);
            && started.1 == Forbidden
            && started.0 == Slot(Some(classId), Some(now), Some(classes[classId].teacherId), Some(map[]))
  {
  }

  /** After a successful DONE every event but an unknown one is refused, until
      the next start: no teacher owns the slot, and a student's query finds no
      session. */
  lemma IdleAfterDone(slot: Slot, teacher: Identity, next: Identity, ev: Event, classes: Classes, persistOk: bool)
    requires teacher.role == TeacherRole && Owns(slot, teacher.userId) && Wf(slot)
    requires !ev.Unknown?
    ensures var done := Step(slot, teacher, Done, classes, true);
            && done.slot == Empty
            && IsRejection(Step(done.slot, next, ev, classes, persistOk).out)
  {
  }
}

=== FILE: reconcile.dfy ===
/**
 The DONE reconciliation: fill in absentees from the roster, turn the completed
 map into records, persist them in one batch, count, and clear the slot.
 */
module Reconcile {
  import opened Options
  import opened Session
  import opened Messages
  import opened Tally

  const Persisted := "Attendance Persisted"

  /** The source's `!attendance[id]`: a student with no entry, or with the empty
      string as status, counts as not yet marked. */
  predicate Unmarked(m: Attendance, s: string) {
    s !in m || m[s] == ""
  }

  /** The completed map, stated key by key: every roster student is a key,
      a roster student not yet marked is absent, every other key keeps its status,
      and nothing else is added. */
  predicate Completes(r: Attendance, m: Attendance, roster: seq<string>) {
    && r.Keys == m.Keys + (set s | s in roster)
    && (forall k :: k in r ==> r[k] == if k in roster && Unmarked(m, k) then Absent else m[k])
  }

  /** The roster walk: for each listed student, in the order the class store
      lists them, mark them absent unless they already hold a status. */
  function FillAbsent(m: Attendance, roster: seq<string>): (r: Attendance)
    ensures Completes(r, m, roster)
    decreases |roster|
  {
    if |roster| == 0 then
      m
    else
      var m' := FillOne(m, roster[0]);
      var r := FillAbsent(m', roster[1..]);
      FillAbsentStep(m, roster, r);
      r
  }

  /** One step of the walk: student `s` becomes absent when unmarked. */
  function FillOne(m: Attendance, s: string): (m': Attendance) {
    if Unmarked(m, s) then m[s := Absent] else m
  }

  /** Completing the map after the first student has been filled in completes
      it for the whole roster. */
  lemma FillAbsentStep(m: Attendance, roster: seq<string>, r: Attendance)
    requires |roster| > 0
    requires Completes(r, FillOne(m, roster[0]), roster[1..])
    ensures Completes(r, m, roster)
  {
    var s := roster[0];
    var m' := FillOne(m, s);
    assert (set x | x in roster) == {s} + (set x | x in roster[1..]);
    forall k | k in r
      ensures r[k] == if k in roster && Unmarked(m, k) then Absent else m[k]
    {
      if k == s {
        assert !Unmarked(m', k);
      } else {
        assert k in roster <==> k in roster[1..];
      }
    }
  }

  /** Filling in a map that is already complete changes nothing, so a DONE
      retried after a failed write persists the same records. */
  lemma FillAbsentIdempotent(m: Attendance, roster: seq<string>)
    ensures FillAbsent(FillAbsent(m, roster), roster) == FillAbsent(m, roster)
  {
    var once := FillAbsent(m, roster);
    var twice := FillAbsent(once, roster);
    assert twice.Keys == once.Keys;
    forall k | k in twice
      ensures twice[k] == once[k]
    {
      if k in roster {
        assert !Unmarked(once, k);
      }
    }
  }

  /** The rows of `Object.entries(attendance).map(...)`, as a set. */
  function Records(classId: string, m: Attendance): (rs: set<Record>) {
    set k | k in m :: Record(classId, k, m[k])
  }

  /** Exactly one record per key: a record is in the batch exactly when it
      carries the session's class, a key of the map and that key's status. */
  lemma {:induction false} RecordsOnePerKey(classId: string, m: Attendance)
    ensures |Records(classId, m)| == |m|
    ensures forall rec :: rec in Records(classId, m) <==>
              rec.classId == classId && rec.studentId in m && rec.status == m[rec.studentId]
    decreases |m|
  {
    if |m| == 0 {
      assert m == map[];
      assert Records(classId, m) == {};
    } else {
      var k :| k in m;
      var rest := m - {k};
      assert |rest| == |m| - 1;
      RecordsOnePerKey(classId, rest);
      assert Records(classId, m) == Records(classId, rest) + {Record(classId, k, m[k])};
      assert Record(classId, k, m[k]) !in Records(classId, rest);
    }
  }

  /** The same rows as a list, one key at a time, as `Object.entries` yields them. */
  method Entries(classId: string, m: Attendance) returns (rs: seq<Record>)
    ensures |rs| == |m|
    ensures forall rec :: rec in rs <==> rec in Records(classId, m)
    ensures forall i, j :: 0 <= i < j < |rs| ==> rs[i].studentId != rs[j].studentId
  {
    RecordsOnePerKey(classId, m);
    rs := [];
    var todo := m.Keys;
    while todo != {}
      invariant todo <= m.Keys
      invariant |rs| + |todo| == |m|
      invariant forall rec :: rec in rs <==>
                  rec.classId == classId && rec.studentId in m.Keys - todo && rec.status == m[rec.studentId]
      invariant forall i, j :: 0 <= i < j < |rs| ==> rs[i].studentId != rs[j].studentId
      decreases todo
    {
      var k :| k in todo;
      rs := rs + [Record(classId, k, m[k])];
      todo := todo - {k};
    }
  }

  /** The class store's roster for `classId` (`classDb?.students`): empty when
      the class is not found. */
  function RosterOf(classes: Classes, classId: string): (roster: seq<string>) {
    if classId in classes then classes[classId].students else []
  }

  /**
   DONE after its checks pass, for the session of `classId` holding `m`.
   The fill-in is written into the slot before the batch insert; the batch is
   skipped when there is nothing to write. A failed insert throws: the slot
   keeps the filled-in map and nothing is broadcast. Otherwise the slot is
   cleared and the counts of the completed map are broadcast.
   */
  function Finalize(slot: Slot, classId: string, m: Attendance, roster: seq<string>, persistOk: bool)
    : (t: Transition)
    ensures t.slot == Empty <==> persistOk || (|m| == 0 && |roster| == 0)
    ensures t.slot != Empty ==> t.slot == slot.(attendance := Some(FillAbsent(m, roster)))
    ensures forall o :: o in t.out ==> o.Persist? || o.Broadcast?
    ensures forall o :: o in t.out && o.Persist? ==>
              o == Persist(Records(classId, FillAbsent(m, roster))) && |o.records| == |FillAbsent(m, roster)|
  {
    var filled := FillAbsent(m, roster);
    RecordsOnePerKey(classId, filled);
    assert |roster| > 0 ==> roster[0] in filled;
    var persist := if |filled| > 0 then [Persist(Records(classId, filled))] else [];
    if |filled| > 0 && !persistOk then
      Transition(slot.(attendance := Some(filled)), persist)
    else
      var done := DoneMsg(Persisted, Count(filled, Present), Count(filled, Absent), |filled|);
      Transition(Empty, persist + [Broadcast(done)])
  }
}

=== FILE: router.dfy ===
/**
 The message handler of a real-time connection: one inbound event against the
 slot, with the sender's identity, the class store and the outcome of the batch
 insert as parameters. Events are handled one at a time.
 */
module Router {
  import opened Options
  import opened Session
  import opened Messages
  import opened Tally
  import opened Reconcile
  import opened Gateway

  /** The `event` tag of an inbound message with the `data` fields it uses.
      Any other tag has no case in the handler. */
  datatype Event =
    | AttendanceMarked(studentId: string, status: string)
    | TodaySummary
    | MyAttendance
    | Done
    | Unknown(tag: string)

  const TeacherOnly := "Forbidden, teacher event only"
  const StudentOnly := "Forbidden, student event only"
  const NoSession := "No active attendance session"
  const NotPersisted := "The Attendance is still not persisted"
  const NotEnrolled := "you are not enrolled to this class"
  const NotClassTeacher := "Forbidden , you are not class teacher"
  const NotYetUpdated := "not yet updated"

  /** The events only the owning teacher may send. */
  predicate TeacherEvent(ev: Event) {
    ev.AttendanceMarked? || ev.TodaySummary? || ev.Done?
  }

  /**
   The class store's "is this student in this class" query. When the slot holds
   no class id the query's id filter is undefined, which the store ignores, so it
   asks whether the student is enrolled in any class at all.
   */
  predicate Enrolled(classes: Classes, classId: Option<string>, userId: string) {
    match classId
    case Some(c) => c in classes && userId in classes[c].students
    case None => exists c :: c in classes && userId in classes[c].students
  }

  /** `attendance[userId] || "not yet updated"`. */
  function StatusFor(m: Attendance, userId: string): (status: string) {
    if Unmarked(m, userId) then NotYetUpdated else m[userId]
  }

  /**
   One inbound event. The role check comes first, then ownership (for teacher
   events) or enrolment (for MY_ATTENDANCE, before any session check); a refusal
   sends an ERROR and closes the sender's connection.
   */
  function Step(slot: Slot, who: Identity, ev: Event, classes: Classes, persistOk: bool): (t: Transition)
    // an unknown tag is ignored
    ensures ev.Unknown? ==> t == Transition(slot, [])
    // teacher events from anyone but the owning teacher are refused
    ensures TeacherEvent(ev) && (who.role != TeacherRole || !Owns(slot, who.userId)) ==>
              t.slot == slot && IsRejection(t.out)
    // MY_ATTENDANCE from anyone but an enrolled student is refused and shows no status
    ensures ev.MyAttendance? && (who.role != StudentRole || !Enrolled(classes, slot.classId, who.userId)) ==>
              t.slot == slot && IsRejection(t.out)
    // refusals change nothing
    ensures IsRejection(t.out) ==> t.slot == slot
    // the two queries are read-only, and MY_ATTENDANCE answers the sender only
    ensures ev.TodaySummary? || ev.MyAttendance? ==> t.slot == slot
    ensures ev.MyAttendance? ==> forall o :: o in t.out ==> o.Reply? || o == Close
    // an enrolled student is told their stored status, or the sentinel when it is
    // missing or empty; with no attendance map at all the query is refused
    ensures ev.MyAttendance? && who.role == StudentRole && Enrolled(classes, slot.classId, who.userId) ==>
              && (slot.attendance.None? ==> IsRejection(t.out))
              && (slot.attendance.Some? ==>
                    t.out == [Reply(StatusMsg(
                               if who.userId in slot.attendance.value && slot.attendance.value[who.userId] != ""
                               then slot.attendance.value[who.userId]
                               else NotYetUpdated))])
    // a mark by the owner writes its key and no other, and is broadcast
    ensures ev.AttendanceMarked? && who.role == TeacherRole && Owns(slot, who.userId) && slot.attendance.Some? ==>
              && t.slot == slot.(attendance := t.slot.attendance)
              && t.slot.attendance.Some?
              && ev.studentId in t.slot.attendance.value
              && t.slot.attendance.value[ev.studentId] == ev.status
              && (forall k :: k != ev.studentId ==>
                    (k in t.slot.attendance.value <==> k in slot.attendance.value))
              && (forall k :: k != ev.studentId && k in slot.attendance.value ==>
                    t.slot.attendance.value[k] == slot.attendance.value[k])
              && t.out == [Broadcast(MarkedMsg(ev.studentId, ev.status))]
    // only DONE empties the slot; until then class, teacher and start time stay
    // and no student's entry disappears
    ensures t.slot == Empty && slot != Empty ==> ev.Done?
    ensures t.slot == Empty || (t.slot.classId == slot.classId && t.slot.teacherId == slot.teacherId
                                && t.slot.startedAt == slot.startedAt)
    ensures t.slot != Empty && slot.attendance.Some? ==>
              t.slot.attendance.Some? && slot.attendance.value.Keys <= t.slot.attendance.value.Keys
    ensures Wf(slot) ==> Wf(t.slot)
  {
    match ev
    case AttendanceMarked(studentId, status) =>
      if who.role != TeacherRole then Reject(slot, TeacherOnly)
      else if !Owns(slot, who.userId) then Reject(slot, NoSession)
      else if slot.attendance.None? then Throw(slot)
      else
        var m := slot.attendance.value[studentId := status];
        Transition(slot.(attendance := Some(m)), [Broadcast(MarkedMsg(studentId, status))])
    case TodaySummary =>
      if who.role != TeacherRole then Reject(slot, TeacherOnly)
      else if !Owns(slot, who.userId) then Reject(slot, NoSession)
      else if slot.attendance.None? then Reject(slot, NotPersisted)
      else
        var m := slot.attendance.value;
        Transition(slot, [Broadcast(SummaryMsg(Count(m, Present), Count(m, Absent), |m|))])
    case MyAttendance =>
      if who.role != StudentRole then Reject(slot, StudentOnly)
      else if !Enrolled(classes, slot.classId, who.userId) then Reject(slot, NotEnrolled)
      else if slot.attendance.None? then Reject(slot, NoSession)
      else Transition(slot, [Reply(StatusMsg(StatusFor(slot.attendance.value, who.userId)))])
    case Done =>
      // the source's role message for DONE reads "student event only"
      if who.role != TeacherRole then Reject(slot, StudentOnly)
      else if !Owns(slot, who.userId) then Reject(slot, NotClassTeacher)
      else if slot.classId.None? || slot.attendance.None? then Throw(slot)
      else
        var c := slot.classId.value;
        Finalize(slot, c, slot.attendance.value, RosterOf(classes, c), persistOk)
    case Unknown(_) => Transition(slot, [])
  }

  /** One event as the server receives it, from a connection already admitted. */
  datatype Arrival = Arrival(who: Identity, ev: Event)

  /** A sequence of events handled in arrival order; the outputs accumulate. */
  function Run(slot: Slot, trace: seq<Arrival>, classes: Classes, persistOk: bool): (t: Transition)
    ensures Wf(slot) ==> Wf(t.slot)
    // without a DONE the session neither ends nor starts, and its class, teacher
    // and start time stay as they were
    ensures (forall i :: 0 <= i < |trace| ==> !trace[i].ev.Done?) ==>
              && (t.slot == Empty <==> slot == Empty)
              && t.slot.teacherId == slot.teacherId
              && t.slot.classId == slot.classId
              && t.slot.startedAt == slot.startedAt
    decreases |trace|
  {
    if |trace| == 0 then
      Transition(slot, [])
    else
      var before := Run(slot, trace[..|trace| - 1], classes, persistOk);
      var last := trace[|trace| - 1];
      var after := Step(before.slot, last.who, last.ev, classes, persistOk);
      Transition(after.slot, before.out + after.out)
  }

  /** Every event of `events` sent on one connection of `who`, in order. */
  function Stamp(who: Identity, events: seq<Event>): (trace: seq<Arrival>)
    ensures |trace| == |events|
    decreases |events|
  {
    if |events| == 0 then []
    else Stamp(who, events[..|events| - 1]) + [Arrival(who, events[|events| - 1])]
  }

  /** One connection: the token check, then its events in order. A refused
      connection never reaches the handler. Events after a refusal on the same
      connection are still handled, as frames already in flight are delivered
      after the close. */
  function Serve(slot: Slot, token: seq<string>, verify: string -> Option<Identity>,
                 events: seq<Event>, classes: Classes, persistOk: bool): (t: Transition)
    ensures Connect(token, verify).Refused? ==> t.slot == slot && IsRejection(t.out)
    ensures (|token| != 1 || token[0] == "") ==> t == Transition(slot, [Reply(ErrorMsg(TokenNotFound)), Close])
  {
    match Connect(token, verify)
    case Refused(out) => Transition(slot, out)
    case Accepted(who) => Run(slot, Stamp(who, events), classes, persistOk)
  }
}

=== FILE: scenarios.dfy ===
/** Two worked roll calls on concrete values. */
module Scenarios {
  import opened Options
  import opened Session
  import opened Messages
  import opened Tally
  import opened Reconcile
  import opened Gateway
  import opened Router
  import opened Properties

  const Roll: Classes := map["C" := ClassRecord("T", ["S1", "S2", "S3"])]

  const Installed: Slot := Slot(Some("C"), Some("t0"), Some("T"), Some(map[]))
  const Teacher: Identity := Identity("T", TeacherRole)
  const Marked: Attendance := map["S1" := Present, "S2" := Present]
  const Completed: Attendance := map["S1" := Present, "S2" := Present, "S3" := Absent]

  /** T's two marks, S1 and S2 present, on the freshly started session. */
  lemma TwoMarks()
    ensures var marks := [AttendanceMarked("S1", Present), AttendanceMarked("S2", Present)];
            Run(Installed, Stamp(Teacher, marks), Roll, true)
            == Transition(Installed.(attendance := Some(Marked)),
                          [Broadcast(MarkedMsg("S1", Present)), Broadcast(MarkedMsg("S2", Present))])
  {
    var marks := [AttendanceMarked("S1", Present), AttendanceMarked("S2", Present)];
    RunOfMarks(Installed, Teacher, marks, Roll, true);
    assert marks[..1][..0] == [];
    assert ApplyMarks(map[], marks[..1]) == map["S1" := Present];
    assert ApplyMarks(map[], marks) == Marked;
    assert MarkBroadcasts(marks[..1]) == [Broadcast(MarkedMsg("S1", Present))];
  }

  /** The roster walk over S1, S2, S3 adds S3 as absent and nothing else. */
  lemma RosterFillIn()
    ensures FillAbsent(Marked, ["S1", "S2", "S3"]) == Completed
  {
    var r := FillAbsent(Marked, ["S1", "S2", "S3"]);
    assert Completes(r, Marked, ["S1", "S2", "S3"]);
    assert (set s | s in ["S1", "S2", "S3"]) == {"S1", "S2", "S3"};
    assert r.Keys == Completed.Keys;
  }

  /** The completed map's rows and counts. */
  lemma CompletedFigures()
    ensures Records("C", Completed) == {Record("C", "S1", Present), Record("C", "S2", Present), Record("C", "S3", Absent)}
    ensures Count(Completed, Present) == 2 && Count(Completed, Absent) == 1 && |Completed| == 3
  {
    assert KeysWith(Completed, Present) == {"S1", "S2"};
    assert KeysWith(Completed, Absent) == {"S3"};
    assert Completed.Keys == {"S1", "S2", "S3"};
  }

  /** DONE on the marked session writes three records and reports 2 / 1 / 3. */
  lemma FinishRollCall()
    ensures Step(Installed.(attendance := Some(Marked)), Teacher, Done, Roll, true)
            == Transition(Empty, [Persist({Record("C", "S1", Present), Record("C", "S2", Present), Record("C", "S3", Absent)}),
                                  Broadcast(DoneMsg(Persisted, 2, 1, 3))])
  {
    var slot := Installed.(attendance := Some(Marked));
    var roster := ["S1", "S2", "S3"];
    assert RosterOf(Roll, "C") == roster;
    DoneSucceeds(slot, Teacher, Roll);
    RosterFillIn();
    CompletedFigures();
  }

  /** T starts class C. */
  lemma StartClass()
    ensures Start(Empty, Some("C"), "T", Roll, "t0") == (Installed, Started("C", "t0"))
  {
  }

  /** Teacher T starts class C (roster S1, S2, S3), marks S1 and S2 present and
      sends DONE: S3 is filled in as absent, three records are written, the
      summary is 2 / 1 / 3 and the slot is empty again. */
  lemma ClassRollCall()
    ensures var started := Start(Empty, Some("C"), "T", Roll, "t0");
            var trace := [Arrival(Teacher, AttendanceMarked("S1", Present)),
                          Arrival(Teacher, AttendanceMarked("S2", Present)),
                          Arrival(Teacher, Done)];
            var run := Run(started.0, trace, Roll, true);
            && started == (Installed, Started("C", "t0"))
            && run.slot == Empty
            && run.out == [Broadcast(MarkedMsg("S1", Present)),
                           Broadcast(MarkedMsg("S2", Present)),
                           Persist({Record("C", "S1", Present), Record("C", "S2", Present), Record("C", "S3", Absent)}),
                           Broadcast(DoneMsg(Persisted, 2, 1, 3))]
  {
    StartClass();
    var trace := [Arrival(Teacher, AttendanceMarked("S1", Present)),
                  Arrival(Teacher, AttendanceMarked("S2", Present)),
                  Arrival(Teacher, Done)];
    var marks := [AttendanceMarked("S1", Present), AttendanceMarked("S2", Present)];
    assert trace[..2] == Stamp(Teacher, marks);
    TwoMarks();
    var before := Run(Installed, trace[..2], Roll, true);
    assert before.slot == Installed.(attendance := Some(Marked));
    FinishRollCall();
    var last := Step(before.slot, Teacher, Done, Roll, true);
    assert Run(Installed, trace, Roll, true) == Transition(last.slot, before.out + last.out);
  }

  /** A student of another class asks for their status while C's session runs:
      an ERROR, the connection closes, and the slot is as it was. */
  lemma OutsiderQuery(slot: Slot)
    requires slot.classId == Some("C") && slot.attendance.Some?
    ensures Step(slot, Identity("S9", StudentRole), MyAttendance, Roll, true)
            == Transition(slot, [Reply(ErrorMsg(NotEnrolled)), Close])
  {
  }

  /** The text of every refusal, in the order the handler checks: the role
      first, then ownership or enrolment, then the attendance map. Each refusal
      is that ERROR and then Close, and leaves the slot as it was. */
  lemma RefusalTexts(slot: Slot, who: Identity, studentId: string, status: string, classes: Classes, persistOk: bool)
    ensures who.role != TeacherRole ==>
              && Step(slot, who, AttendanceMarked(studentId, status), classes, persistOk)
                 == Transition(slot, [Reply(ErrorMsg(TeacherOnly)), Close])
              && Step(slot, who, TodaySummary, classes, persistOk)
                 == Transition(slot, [Reply(ErrorMsg(TeacherOnly)), Close])
              && Step(slot, who, Done, classes, persistOk)
                 == Transition(slot, [Reply(ErrorMsg(StudentOnly)), Close])
    ensures who.role == TeacherRole && !Owns(slot, who.userId) ==>
              && Step(slot, who, AttendanceMarked(studentId, status), classes, persistOk)
                 == Transition(slot, [Reply(ErrorMsg(NoSession)), Close])
              && Step(slot, who, TodaySummary, classes, persistOk)
                 == Transition(slot, [Reply(ErrorMsg(NoSession)), Close])
              && Step(slot, who, Done, classes, persistOk)
                 == Transition(slot, [Reply(ErrorMsg(NotClassTeacher)), Close])
    ensures who.role == TeacherRole && Owns(slot, who.userId) && slot.attendance.None? ==>
              Step(slot, who, TodaySummary, classes, persistOk)
              == Transition(slot, [Reply(ErrorMsg(NotPersisted)), Close])
    ensures who.role != StudentRole ==>
              Step(slot, who, MyAttendance, classes, persistOk)
              == Transition(slot, [Reply(ErrorMsg(StudentOnly)), Close])
    ensures who.role == StudentRole && !Enrolled(classes, slot.classId, who.userId) ==>
              Step(slot, who, MyAttendance, classes, persistOk)
              == Transition(slot, [Reply(ErrorMsg(NotEnrolled)), Close])
    ensures who.role == StudentRole && Enrolled(classes, slot.classId, who.userId) && slot.attendance.None? ==>
              Step(slot, who, MyAttendance, classes, persistOk)
              == Transition(slot, [Reply(ErrorMsg(NoSession)), Close])
  {
  }
}

=== FILE: session.dfy ===
/**
 The process-wide roll-call slot and the "start attendance" action that fills it.

 The slot is the source's `activeSession` object: every field optional, starting
 out as `{}`. There is no separate "no session" value: a slot is idle when no
 teacher owns it.
 */
module Session {
  import opened Options

  /** Student id to status. Any string is stored; nothing restricts it to
      "present" / "absent". */
  type Attendance = map<string, string>

  datatype Slot = Slot(
    classId: Option<string>,
    startedAt: Option<string>,
    teacherId: Option<string>,
    attendance: Option<Attendance>)

  /** The slot as the process starts, `{}`, and as DONE leaves it. */
  const Empty: Slot := Slot(None, None, None, None)

  /** The ownership check every teacher event makes (`teacherId !== userId`). */
  predicate Owns(slot: Slot, userId: string) {
    slot.teacherId == Some(userId)
  }

  /** The slots that Start and the event handler can produce from `Empty`:
      once installed, an attendance map and a start time are always present, and
      class and teacher are both known or both unknown. */
  predicate Wf(slot: Slot) {
    || slot == Empty
    || (&& slot.startedAt.Some?
        && slot.attendance.Some?
        && (slot.classId.Some? <==> slot.teacherId.Some?))
  }

  /** What the class store holds about one class: its teacher and its roster,
      in the order the store lists it. */
  datatype ClassRecord = ClassRecord(teacherId: string, students: seq<string>)

  type Classes = map<string, ClassRecord>

  /** The HTTP answer of the start action: 400, 403 or 200 with the new session. */
  datatype StartReply = BadRequest | Forbidden | Started(classId: string, startedAt: string)

  /**
   The start action. `request` is the class id the request schema yields, or
   `None` when the body does not parse; `now` is the start timestamp.

   After the 403 the handler does not return: the session is installed all the
   same, for the class's own teacher (or for nobody when the class is unknown),
   replacing whatever session was in the slot.
   */
  function Start(slot: Slot, request: Option<string>, requesterId: string, classes: Classes, now: string)
    : (r: (Slot, StartReply))
    ensures request.None? ==> r == (slot, BadRequest)
    ensures request.Some? ==> Wf(r.0) && r.0.attendance == Some(map[]) && r.0.startedAt == Some(now)
    ensures request.Some? ==>
              (r.1.Started? <==> request.value in classes && classes[request.value].teacherId == requesterId)
    ensures request.Some? ==> (Owns(r.0, requesterId) <==> r.1.Started?)
    // the 200 carries the requested class and the start time; any other answer
    // to a parsed request is the 403, unknown class included
    ensures r.1.Started? ==> request.Some? && r.1 == Started(request.value, now)
    ensures request.Some? && !r.1.Started? ==> r.1 == Forbidden
    ensures request.Some? && request.value in classes ==>
              r.0.classId == request && r.0.teacherId == Some(classes[request.value].teacherId)
    ensures request.Some? && request.value !in classes ==> r.0.classId.None? && r.0.teacherId.None?
  {
    match request
    case None => (slot, BadRequest)
    case Some(classId) =>
      var found := classId in classes;
      var installed := Slot(
        if found then Some(classId) else None,
        Some(now),
        if found then Some(classes[classId].teacherId) else None,
        Some(map[]));
      var reply := if found && classes[classId].teacherId == requesterId then Started(classId, now) else Forbidden;
      (installed, reply)
  }
}

=== FILE: tally.dfy ===
/**
 The present / absent / total counts that TODAY_SUMMARY and DONE report.
 The source counts entries of `Object.values(attendance)`, one per key, so the
 counts here are over keys, not over the set of distinct values.
 */
module Tally {
  import opened Session

  const Present := "present"
  const Absent := "absent"

  function KeysWith(m: Attendance, status: string): (keys: set<string>) {
    set k | k in m && m[k] == status
  }

  /** Number of students whose stored status is exactly `status`. */
  function Count(m: Attendance, status: string): (n: nat) {
    |KeysWith(m, status)|
  }

  predicate OnlyKnownStatuses(m: Attendance) {
    forall k :: k in m ==> m[k] == Present || m[k] == Absent
  }

  /** present + absent never exceeds total, and reaches it exactly when no
      student holds a status other than the two known ones. */
  lemma CountIdentities(m: Attendance)
    ensures Count(m, Present) + Count(m, Absent) <= |m|
    ensures Count(m, Present) + Count(m, Absent) == |m| <==> OnlyKnownStatuses(m)
  {
    var p, a := KeysWith(m, Present), KeysWith(m, Absent);
    assert p !! a;
    var rest := m.Keys - (p + a);
    assert m.Keys == (p + a) + rest;
    assert |m.Keys| == |p| + |a| + |rest|;
    if OnlyKnownStatuses(m) {
      assert rest == {};
    } else {
      var k :| k in m && m[k] != Present && m[k] != Absent;
      assert k in rest;
    }
  }

  /** Adding one more key to the keys already walked adds one to a count
      exactly when that key holds the counted status. */
  lemma WalkOneKey(m: Attendance, status: string, seen: set<string>, k: string)
    requires k in m && k !in seen
    ensures |KeysWith(m, status) * (seen + {k})|
            == |KeysWith(m, status) * seen| + (if m[k] == status then 1 else 0)
  {
    if m[k] == status {
      assert KeysWith(m, status) * (seen + {k}) == (KeysWith(m, status) * seen) + {k};
    } else {
      assert KeysWith(m, status) * (seen + {k}) == KeysWith(m, status) * seen;
    }
  }

  /** The source's `values.filter(v => v === s).length` and `values.length`,
      walking the keys one at a time. */
  method TallyValues(m: Attendance) returns (present: nat, absent: nat, total: nat)
    ensures present == Count(m, Present)
    ensures absent == Count(m, Absent)
    ensures total == |m|
  {
    present, absent, total := 0, 0, 0;
    var todo := m.Keys;
    ghost var seen: set<string> := {};
    while todo != {}
      invariant todo !! seen && todo + seen == m.Keys
      invariant present == |KeysWith(m, Present) * seen|
      invariant absent == |KeysWith(m, Absent) * seen|
      invariant total == |seen|
      decreases todo
    {
      var k :| k in todo;
      WalkOneKey(m, Present, seen, k);
      WalkOneKey(m, Absent, seen, k);
      if m[k] == Present {
        present := present + 1;
      }
      if m[k] == Absent {
        absent := absent + 1;
      }
      total := total + 1;
      todo := todo - {k};
      seen := seen + {k};
    }
    assert seen == m.Keys;
    assert KeysWith(m, Present) * seen == KeysWith(m, Present);
    assert KeysWith(m, Absent) * seen == KeysWith(m, Absent);
  }
}
